=== FILE: README.md ===
# Employee records: a Dafny model

This project models the core of a small employee-records web application. The
application lists, searches, shows, updates and registers employees. Employee
rows live in one `employees` table; uploaded images are files in an image
directory.

The model covers four parts:

- **Paging** (`pagination.dfy`, module `Pagination`). This is the `Paging` value
  object: its defaults, and the ceiling division `setTotalPage` performs with
  Java's truncating `/` and `%`.
- **The repository** (`employees.dfy`, `repository.dfy`, modules `Employees` and
  `Repository`). The table is a `seq<Employee>` and every SQL statement is a pure
  function of it:
  - `findAll`: `ORDER BY hire_date`
  - `findByNameWithPaging`: `LIKE`, `LIMIT` and `OFFSET`, with `null` for an empty page
  - `totalRecord`: `COUNT(*)`
  - `findByName`
  - `load`
  - `update`: changes only `dependents_count`
  - `insert`
  - `findMaxId`: `MAX(id)`, which is `null` on an empty table

  The service layer only delegates, so its methods are these same functions.
- **The controller** (`controller.dfy`, module `Controller`). It holds three
  decision procedures:
  - search, with its fallback to the full list
  - the update guard
  - insert: image checks, validation, the stored image name, the copy, and
    id assignment as `findMaxId() + 1`
- **The insert form** (`forms.dfy`, module `Forms`). This is the form's twelve
  nullable fields, their getters and setters, and the validity that the
  bean-validation annotations demand.

The platform semantics the model depends on live in `platform.dfy` (module `Platform`):

- `null` (`Nullable`)
- exceptions (`Result`): Java's own, Spring's JDBC outcomes, the database's refusal of a negative bound, and `Files.copy` onto an existing file
- `int` division
- `String.trim`
- `String.contains`, the reading given to `LIKE '%x%'`
- `Integer.toString`

Modelling choices:

- The randomness, the file system and the database's tie order are parameters
  or fixed choices:
  - The random number is an argument below 100.
  - The image directory is a set of file names. `Files.copy` fails exactly
    when the target name is already present.
  - Rows with equal hire dates keep their storage order.
- The database is assumed to reject a negative `LIMIT` or `OFFSET`, as
  PostgreSQL does.
- `findByName(null)` searches for the text `"null"`, because Java's string
  concatenation renders `null` that way.
- Further choices that follow the code:
  - A page past the end answers `null`, just like a search that matches nothing.
  - `findMaxId` on an empty table is `null`, and the controller's
    `findMaxId() + 1` then throws.
  - The model's `Employee` puts no constraint on salary or dependents count;
    the table schema is not modelled. Only the form requires a non-negative
    salary, and nothing bounds the dependents count.

## Model

| member | source | states |
|---|---|---|
| Platform.Quot | src/main/java/com/example/paging/Paging.java:37-40 | Java's `/` truncates toward zero: `b·q` lies between 0 and `a` and within one divisor of `a`, which fixes `q` |
| Platform.Rem | src/main/java/com/example/paging/Paging.java:37-40 | Java's `%` has a magnitude below the divisor's, its sign follows the dividend, and `a − r` is a multiple of the divisor, which fixes `r` |
| Platform.TrimNonEmptyIffVisible | src/main/java/com/example/form/InsertEmployeeForm.java:19-20 | `trim()` leaves something exactly when the string holds a character above U+0020, which is what `@NotBlank` checks |
| Platform.ContainsIffOccurs | src/main/java/com/example/repository/EmployeeRepository.java:75-77 | the left-to-right scan that reads `LIKE '%x%'` finds the pattern exactly when it occurs at some index |
| Platform.ParseDecimalString | src/main/java/com/example/controller/EmployeeController.java:178 | the decimal text that `randomNumber +` produces parses back to the number |
| Pagination.Default | src/main/java/com/example/paging/Paging.java:8-14 | a freshly constructed `Paging` is on page 1, with five rows a page, start page 1, and a page count of 0 until `setTotalPage` runs |
| Pagination.PageCount | src/main/java/com/example/paging/Paging.java:36-42 | for a record count n ≥ 0 and a page size p > 0, the page count c satisfies c·p ≥ n and (c−1)·p < n |
| Pagination.SetTotalPage | src/main/java/com/example/paging/Paging.java:36-42 | a zero page size throws ArithmeticException; otherwise only totalPage changes, and it is the ceiling of count/pageSize |
| Pagination.PageCountIsLeastCover | src/main/java/com/example/paging/Paging.java:36-42 | k pages hold all n records exactly when k ≥ the page count, so the page count is the least cover |
| Pagination.PageCountOfZero | src/main/java/com/example/paging/Paging.java:37-38 | no records give zero pages |
| Pagination.PageCountOfFullPages | src/main/java/com/example/paging/Paging.java:37-38 | k·pageSize records give exactly k pages |
| Pagination.PageCountMonotone | src/main/java/com/example/paging/Paging.java:36-42 | more records never give fewer pages |
| Pagination.PageSizeChangeKeepsTotalPage | src/main/java/com/example/paging/Paging.java:28-30 | setPageSize leaves totalPage as computed for the old page size |
| Pagination.StaleTotalPageExample | src/main/java/com/example/paging/Paging.java:8-42 | with the defaults, 10 records give 2 pages, and these stay 2 after the page size becomes 3, although 4 would be needed |
| Employees.SortByHireDate | src/main/java/com/example/repository/EmployeeRepository.java:54 | `ORDER BY hire_date` returns a permutation of its input, sorted by hire date |
| Employees.FilterByName | src/main/java/com/example/repository/EmployeeRepository.java:75-77 | each row whose name contains the pattern is kept as often as it is stored, and every other row is dropped |
| Repository.FindAll | src/main/java/com/example/repository/EmployeeRepository.java:53-57 | every row exactly once, sorted by hire date; an empty table gives an empty list |
| Repository.LimitOffset | src/main/java/com/example/repository/EmployeeRepository.java:80-82 | LIMIT/OFFSET gives min(limit, size−offset) rows, namely the rows at offset, offset+1, … |
| Repository.FindByNameWithPaging | src/main/java/com/example/repository/EmployeeRepository.java:66-91 | a negative bound throws; null exactly when the slice is empty; otherwise 1..pageSize consecutive rows of the ordered candidates from offset (nowPage−1)·pageSize, and the page is full unless it is the last |
| Repository.TotalRecord | src/main/java/com/example/repository/EmployeeRepository.java:158-173 | the count uses the same WHERE condition as the paged query: it equals the length of the list that query slices |
| Repository.FindAllSizeIsUnfilteredCount | src/main/java/com/example/repository/EmployeeRepository.java:158-173 | with a null or empty name, the count equals the size of findAll |
| Repository.PageBeyondLastIsNull | src/main/java/com/example/repository/EmployeeRepository.java:80-90 | for pageSize > 0 and nowPage ≥ 1, the paged query answers null exactly when nowPage exceeds setTotalPage(totalRecord(name)) |
| Repository.DefaultPagingShowsFirstFiveRows | src/main/java/com/example/paging/Paging.java:8-14 | a fresh Paging (page 1, size 5) returns the first five ordered candidates, or null when there are none |
| Repository.RowsWithId | src/main/java/com/example/repository/EmployeeRepository.java:101 | `WHERE id=:id` keeps exactly the rows with that id; under a unique key, at most one |
| Repository.Load | src/main/java/com/example/repository/EmployeeRepository.java:100-108 | the returned row is stored and has the id; no such row throws the empty-result error; under a unique key, success exactly when the id is stored |
| Repository.LoadAtIndex | src/main/java/com/example/repository/EmployeeRepository.java:100-108 | under a unique key, loading a stored row's id returns that row |
| Repository.Update | src/main/java/com/example/repository/EmployeeRepository.java:113-118 | rows with the id get the new dependents count and nothing else changes; all other rows are unchanged; the length is kept |
| Repository.UpdateOfMissingIdIsNoop | src/main/java/com/example/repository/EmployeeRepository.java:113-118 | updating an id that is not stored leaves the table unchanged, without error |
| Repository.UpdateKeepsIds | src/main/java/com/example/repository/EmployeeRepository.java:116 | an update keeps the set of ids, and with it the unique key |
| Repository.LoadAfterUpdate | src/main/java/com/example/repository/EmployeeRepository.java:113-118 | after an update, the id loads as before except for the new count; every other id loads exactly as before |
| Repository.FindByName | src/main/java/com/example/repository/EmployeeRepository.java:125-132 | always filters by substring (a null name searches for "null"), is sorted by hire date, and keeps each matching row as often as it is stored |
| Repository.FindByEmptyNameIsFindAll | src/main/java/com/example/repository/EmployeeRepository.java:125-132 | findByName("") equals findAll |
| Repository.Insert | src/main/java/com/example/repository/EmployeeRepository.java:137-143 | a stored id is a duplicate-key error; otherwise exactly one row, equal to the argument in all twelve columns, is added after the old rows |
| Repository.InsertKeepsUniqueIds | src/main/java/com/example/repository/EmployeeRepository.java:137-143 | an accepted insert keeps ids unique and adds exactly its id |
| Repository.LoadAfterInsert | src/main/java/com/example/repository/EmployeeRepository.java:137-143 | the inserted row loads back unchanged under its id; every other id loads as before |
| Repository.FindMaxId | src/main/java/com/example/repository/EmployeeRepository.java:148-153 | null exactly for an empty table; otherwise a stored id that is at least every stored id |
| Forms.Set | src/main/java/com/example/form/InsertEmployeeForm.java:99-189 | after a setter, the matching getter returns the new value and every other getter returns its old value |
| Forms.SetGetIsIdentity | src/main/java/com/example/form/InsertEmployeeForm.java:99-189 | setting a field to its own getter's value leaves the form unchanged |
| Forms.ConstructorStoresArguments | src/main/java/com/example/form/InsertEmployeeForm.java:82-97 | the twelve-argument constructor stores each argument, unchanged, in its own field |
| Forms.IsValid | src/main/java/com/example/form/InsertEmployeeForm.java:17-52 | the form is acceptable when the seven text fields are filled in, the image, hire date, salary and dependents count are present, and the salary is not negative |
| Forms.NotBlankMeansFilled | src/main/java/com/example/form/InsertEmployeeForm.java:19-20 | `@NotBlank` accepts exactly a non-null string with a character above U+0020 |
| Forms.ViolatedIff | src/main/java/com/example/form/InsertEmployeeForm.java:17-52 | the annotations on each field reject exactly the following: a blank or null text field; a null image, hire date or dependents count; a null or negative salary; and nothing for id |
| Forms.ValidIffNoViolations | src/main/java/com/example/form/InsertEmployeeForm.java:17-52 | the form is valid exactly when the annotations report no field |
| Forms.Blank | src/main/java/com/example/form/InsertEmployeeForm.java:56-57 | the no-argument constructor leaves all twelve fields null |
| Forms.BlankViolatesEveryAnnotatedField | src/main/java/com/example/form/InsertEmployeeForm.java:17-57 | a form as the no-argument constructor leaves it is invalid, and the validator reports every field except the id |
| Forms.IdAndDependentsSignUnconstrained | src/main/java/com/example/form/InsertEmployeeForm.java:17-52 | a valid form stays valid with any id (null included) and any dependents count (negative included) |
| Controller.Search | src/main/java/com/example/controller/EmployeeController.java:113-130 | a null name throws; the message is set exactly when the first list is empty, and then the full list is shown; otherwise the first list is shown; the shown list is empty exactly when the table is |
| Controller.FirstListEmptyIffNoMatch | src/main/java/com/example/controller/EmployeeController.java:115-122 | the first list is empty exactly when no stored name contains the text |
| Controller.SearchShowsMatchesOrEveryone | src/main/java/com/example/controller/EmployeeController.java:113-130 | if some name matches, the page shows exactly the matching rows, sorted, without the message; otherwise it shows the message and a sorted permutation of the whole table |
| Controller.AliceAndBobExample | src/main/java/com/example/controller/EmployeeController.java:113-130 | with Alice and Bob stored, "zzz" shows both with the message and "Al" shows only Alice |
| Controller.UpdateEmployee | src/main/java/com/example/controller/EmployeeController.java:92-102 | with errors, the table is unchanged and the detail page shows the stored row with that id; without errors, only that id's dependents count changes, and the browser is redirected to the list |
| Controller.ImageFileNameSplits | src/main/java/com/example/controller/EmployeeController.java:174-178 | the stored name is one or two digits that parse to the random number, followed by the uploaded name |
| Controller.ImageFileNamesCanCollide | src/main/java/com/example/controller/EmployeeController.java:176-182 | (1, "2a.png") and (12, "a.png") give the same stored name |
| Controller.StageImage | src/main/java/com/example/controller/EmployeeController.java:159-182 | a null image throws before validation; an empty image or any error returns the form with nothing changed; a taken file name throws; otherwise exactly the new name is added to the directory |
| Controller.ToEmployee | src/main/java/com/example/controller/EmployeeController.java:169-170 | the new row carries every validated form value |
| Controller.InsertEmployee | src/main/java/com/example/controller/EmployeeController.java:155-188 | success exactly when the request is admissible and the table is non-empty; only success changes the table, adding one row whose id is `findMaxId() + 1`, above every stored id, the form's values and the new image name; a taken image name throws FileAlreadyExists with nothing changed; an empty table throws after the copy |
| Controller.PostedIdIsIgnored | src/main/java/com/example/controller/EmployeeController.java:169-184 | the id posted with the form does not affect the outcome |
| Controller.InsertedRowLoadsBack | src/main/java/com/example/controller/EmployeeController.java:182-185 | after a successful insert, the new id was not stored before and loads back the new row |
| Controller.FirstInsertFails | src/main/java/com/example/controller/EmployeeController.java:182-184 | every admissible request on an empty table (any form, any random number below 100) stores its image and throws NullPointerException, inserting nothing |
| Controller.FirstInsertFailsExample | src/main/java/com/example/controller/EmployeeController.java:182-184 | such a request exists: a filled-in form with a fresh image name is admissible on an empty table and fails this way |
| Controller.InsertEmployeeFromZero | src/main/java/com/example/controller/EmployeeController.java:184 | with null read as 0, success exactly when the request is admissible; the new id is `findMaxId() + 1`, and the first employee gets id 1 |
| Controller.FromZeroAgreesOnNonEmptyTable | src/main/java/com/example/controller/EmployeeController.java:184 | on a non-empty table, both id rules give identical results |
| Controller.InsertFromZeroKeepsIdsGapless | src/main/java/com/example/controller/EmployeeController.java:184 | successive inserts from an empty table keep the ids exactly 1..n |

## Left out

- `src/main/resources/static/js/employee.js` is browser code that calls an external postal-code service. It is not modelled.
- `EmployeeService` only delegates. Its methods are the repository functions themselves.
- `showList`, `showDetail` and `insertForm` only forward. `showList` is `FindAll` and `showDetail` is `Load`. `insertForm` shows whatever form is bound to the request: the `Blank` form on a plain GET, or the posted form when `insert` returns to it on an error (`EmployeeController.java:166`). `setUpForm` builds a new `UpdateEmployeeForm`, which is not part of this model. `Integer.parseInt` in `showDetail` is library behaviour and is not modelled.
- JDBC and Spring plumbing is not modelled: the row mapper, `@Transactional`, dependency injection, view names, and model attributes other than the search message.
- `LIKE` is modelled as plain, case-sensitive substring containment. `%` and `_` inside the searched name are not treated as wildcards, and the collation is not modelled.
- Ties in `ORDER BY hire_date` are fixed to storage order. The database may return rows with equal hire dates in any order, and may choose differently for each query. So the separate `LIMIT`/`OFFSET` query behind each page (`EmployeeRepository.java:80`) can repeat a row on one page and skip it on another. The model does not cover that. `Employees.SortByHireDate`, `Repository.FindAll` and `Repository.FindByName` state only "sorted" and "same rows", which hold for every tie order. `Repository.FindByNameWithPaging`, `Repository.DefaultPagingShowsFirstFiveRows`, `Repository.FindByEmptyNameIsFindAll` and `Controller.AliceAndBobExample` (when the hire dates are equal) state exact sequences, and these hold only under the storage-order tie-break.
- `java.util.Random` is replaced by an argument below 100.
- The image directory is a set of names, and the file contents are not modelled. `Files.copy` fails only on an existing name. Other I/O failures are not modelled.
- The `synchronized` on `insert` is not modelled, and neither is any concurrency. Each request is one atomic step, so concurrent inserts are out of scope.
- Java's 32-bit `int` wrap-around is not modelled. `(nowPage − 1) · pageSize`, `findMaxId() + 1` and the page count use unbounded integers.
- `com.example.domain.Employee` is not part of this model. Its properties are assumed to have the form's names and types, so `BeanUtils.copyProperties` copies all ten posted values.
- Dates are day numbers. `@DateTimeFormat` parsing is not modelled.
- `UpdateEmployeeForm` is not part of this model. Its validation result is the `hasErrors` argument, and its id and count arrive already parsed.
- Controller.UpdateEmployee: the validation of the update form is abstracted to a boolean. A non-numeric id, which makes `showDetail` throw, is not modelled.
- Controller.InsertEmployee: type-conversion errors from form binding are one boolean, `conversionErrors`, rather than per-field errors.
- Pagination.SetTotalPage: the ceiling bounds are stated only for a non-negative count and a positive page size. Java's truncating arithmetic is modelled for the other cases, but its results there are not characterised.
- `setNowPage`, `setStartPage` and the getters of `Paging` are the datatype's update and field selection. `startPage` is never read by the core.
- `toString` methods are not modelled.

## Findings

| source | as written | input that shows it | evidently intended | confidence | as-written member | corrected member |
|---|---|---|---|---|---|---|
| src/main/java/com/example/controller/EmployeeController.java:184 | `findMaxId() + 1` unboxes the `Integer` returned by `SELECT MAX(id)`, which is `null` on an empty table; the image has already been copied at line 182 | an empty `employees` table and a valid insert request: NullPointerException, no row, and an orphan image file | an empty table gives the first employee id 1, as if the maximum were 0, and ids stay 1..n | not executed; medium | Controller.InsertEmployee, Controller.FirstInsertFails | Controller.InsertEmployeeFromZero, Controller.InsertFromZeroKeepsIdsGapless |

=== FILE: controller.dfy ===
/**
 The request handlers of the employee pages, as decision procedures over the
 table. `showList` is `FindAll` and `showDetail` is `Load`; this module holds
 the handlers that decide something: search, update and insert.
 */
module Controller {
  import opened Platform
  import opened Employees
  import opened Repository
  import opened Forms

  /** Where a handler sends the browser. */
  datatype View =
    | ListRedirect               // "redirect:/employee/showList"
    | DetailView(employee: Employee)
    | InsertFormView             // the insert form again, with its errors

  // ---------------------------------------------------------------------
  // search

  /** What the list page shows after a search, and whether the "no results" message is set. */
  datatype SearchView = SearchView(employeeList: seq<Employee>, searchMessage: bool)

  /** The list `search` fetches first: everyone for an empty name, the matches otherwise. */
  function SearchFirstList(t: Table, name: string): seq<Employee>
  {
    if |name| == 0 then FindAll(t) else FindByName(t, Value(name))
  }

  /**
   `search(name)`: when the first list is empty the message is set and the
   full list is shown instead. A missing name parameter is dereferenced and throws.
   */
  function Search(t: Table, name: Nullable<string>): (r: Result<SearchView>)
    ensures r.Throws? <==> name.Null?
    ensures r.Throws? ==> r.error == NullPointerException
    ensures r.Ok? ==> (r.value.searchMessage <==> |SearchFirstList(t, name.value)| == 0)
    ensures r.Ok? && r.value.searchMessage ==> r.value.employeeList == FindAll(t)
    ensures r.Ok? && !r.value.searchMessage ==>
              r.value.employeeList == SearchFirstList(t, name.value)
    ensures r.Ok? ==> (|r.value.employeeList| == 0 <==> |t| == 0)
  {
    match name
    case Null => Throws(NullPointerException)
    case Value(text) =>
      var first := SearchFirstList(t, text);
      if |first| == 0 then
        assert |multiset(FindAll(t))| == |multiset(t)|;
        Ok(SearchView(FindAll(t), true))
      else
        assert first[0] in multiset(first);
        Ok(SearchView(first, false))
  }

  /** Some stored name contains `text`. */
  predicate SomeNameContains(t: Table, text: string)
  {
    exists e :: e in t && Contains(e.name, text)
  }

  /** The first list is empty exactly when no stored name contains the text. */
  lemma FirstListEmptyIffNoMatch(t: Table, text: string)
    ensures |SearchFirstList(t, text)| == 0 <==> !SomeNameContains(t, text)
  {
    var first := SearchFirstList(t, text);
    if |text| == 0 {
      if |t| > 0 {
        ContainsEmpty(t[0].name);
        assert t[0] in t;
      }
      assert |multiset(first)| == |multiset(t)|;
    } else {
      if SomeNameContains(t, text) {
        var e :| e in t && Contains(e.name, text);
        assert multiset(first)[e] == multiset(t)[e];
        assert e in first;
      }
      if |first| > 0 {
        var e := first[0];
        assert e in multiset(first);
        assert e in t && Contains(e.name, text);
      }
    }
  }

  /**
   The search page shows the matches, in hire-date order and each once, when
   any name matches; otherwise the message and the whole table.
   */
  lemma SearchShowsMatchesOrEveryone(t: Table, text: string)
    ensures Search(t, Value(text)).Ok?
    ensures var v := Search(t, Value(text)).value;
            if SomeNameContains(t, text) then
              && !v.searchMessage
              && SortedByHireDate(v.employeeList)
              && (forall e :: multiset(v.employeeList)[e]
                              == if Contains(e.name, text) then multiset(t)[e] else 0)
            else
              && v.searchMessage
              && SortedByHireDate(v.employeeList)
              && multiset(v.employeeList) == multiset(t)
  {
    FirstListEmptyIffNoMatch(t, text);
    if |text| == 0 {
      forall e: Employee
        ensures Contains(e.name, text)
      {
        ContainsEmpty(e.name);
      }
    }
  }

  lemma AliceAndBobNames()
    ensures StartsWith("Alice", "Al") && Contains("Alice", "Al")
    ensures !Contains("Alice", "zzz") && !Contains("Bob", "zzz") && !Contains("Bob", "Al")
  {
    assert StartsWith("Alice", "Al");
    assert "Alice"[1..] == "lice" && "lice"[1..] == "ice" && "ice"[1..] == "ce";
    assert "ce"[1..] == "e" && "e"[1..] == "";
    assert !Contains("", "zzz");
    assert !Contains("e", "zzz");
    assert !Contains("ce", "zzz");
    assert "ice"[..3] != "zzz" by { assert "ice"[..3][0] == 'i'; }
    assert !StartsWith("ice", "zzz");
    assert !Contains("ice", "zzz");
    assert !Contains("lice", "zzz");
    assert "Bob"[1..] == "ob" && "ob"[1..] == "b" && "b"[1..] == "";
    assert !Contains("", "Al") && !Contains("b", "Al");
    assert "ob"[..2] != "Al" by { assert "ob"[..2][0] == 'o'; }
    assert !StartsWith("ob", "Al");
    assert !Contains("ob", "Al");
    assert !Contains("b", "zzz") && !Contains("ob", "zzz");
  }

  /** With Alice and Bob stored, "zzz" shows both with the message, "Al" shows only Alice. */
  lemma AliceAndBobExample(alice: Employee, bob: Employee)
    requires alice.name == "Alice" && bob.name == "Bob"
    requires alice.hireDate <= bob.hireDate
    ensures Search([alice, bob], Value("zzz")) == Ok(SearchView([alice, bob], true))
    ensures Search([alice, bob], Value("Al")) == Ok(SearchView([alice], false))
  {
    var t := [alice, bob];
    AliceAndBobNames();
    assert t[1..] == [bob] && t[1..][1..] == [];
    assert FilterByName(t, "zzz") == [];
    assert FilterByName(t, "Al") == [alice];
    assert FindAll(t) == t by {
      assert SortByHireDate([bob]) == [bob];
    }
  }

  // ---------------------------------------------------------------------
  // update

  /**
   `update(form)`: with validation errors the detail page of the posted id is
   shown again and the table is untouched; otherwise only the dependents count
   of that id changes and the browser goes back to the list.
   */
  function UpdateEmployee(t: Table, hasErrors: bool, id: int, dependentsCount: int)
    : (r: (Table, Result<View>))
    ensures hasErrors ==> r.0 == t
    ensures hasErrors && r.1.Ok? ==> r.1.value.DetailView? && r.1.value.employee in t
                                     && r.1.value.employee.id == id
    ensures hasErrors && UniqueIds(t) ==> (r.1.Ok? <==> id in Ids(t))
    ensures !hasErrors ==> r.1 == Ok(ListRedirect)
    ensures !hasErrors ==>
              && |r.0| == |t|
              && forall i :: 0 <= i < |t| ==>
                   r.0[i] == if t[i].id == id then t[i].(dependentsCount := dependentsCount) else t[i]
  {
    if hasErrors then
      match Load(t, id)
      case Ok(e) => (t, Ok(DetailView(e)))
      case Throws(x) => (t, Throws(x))
    else
      (Update(t, id, dependentsCount), Ok(ListRedirect))
  }

  // ---------------------------------------------------------------------
  // insert

  /** The table and the names of the image files already in the image directory. */
  datatype Store = Store(table: Table, images: set<string>)

  /** The stored image name: the random number's decimal digits, then the uploaded name. */
  function ImageFileName(random: nat, upload: Upload): string
  {
    DecimalString(random) + upload.originalFilename
  }

  /** The stored name begins with the one or two digits of the random number and ends with the uploaded name. */
  lemma ImageFileNameSplits(random: nat, upload: Upload)
    requires random < 100
    ensures var k := |DecimalString(random)|;
            var n := ImageFileName(random, upload);
            && 1 <= k <= 2
            && (forall i :: 0 <= i < k ==> IsDigit(n[i]))
            && ParseDecimal(n[..k]) == random
            && n[k..] == upload.originalFilename
  {
    var k := |DecimalString(random)|;
    var n := ImageFileName(random, upload);
    assert n[..k] == DecimalString(random);
    ParseDecimalString(random);
    if random >= 10 {
      assert DecimalString(random) == DecimalString(random / 10) + [DigitChar(random % 10)];
    }
  }

  /**
   The name does not determine the random number: two different uploads can
   be stored under the same name, and the second copy then fails.
   */
  lemma ImageFileNamesCanCollide()
    ensures ImageFileName(1, Upload("2a.png", 1)) == ImageFileName(12, Upload("a.png", 1))
  {
    assert DecimalString(12) == DecimalString(1) + [DigitChar(2)];
  }

  /**
   Everything `insert` requires before it touches the table: an image that
   was chosen, no binding or validation error, and a free file name.
   */
  predicate Admissible(s: Store, form: InsertEmployeeForm, conversionErrors: bool, random: nat)
  {
    && form.imageData.Value?
    && form.imageData.value.size > 0
    && !conversionErrors
    && IsValid(form)
    && ImageFileName(random, form.imageData.value) !in s.images
  }

  /** How far the image checks and the copy take a request. */
  datatype Staged =
    | Finished(store: Store, outcome: Result<View>)
    | Copied(images: set<string>, fileName: string)

  /**
   The image check, the validation check and the copy. A `null` image is
   dereferenced before validation is consulted; an empty one is reported as
   an error; the copy refuses to overwrite an existing file.
   */
  function StageImage(s: Store, form: InsertEmployeeForm, conversionErrors: bool, random: nat)
    : (st: Staged)
    ensures st.Copied? <==> Admissible(s, form, conversionErrors, random)
    ensures st.Copied? ==> st.fileName == ImageFileName(random, form.imageData.value)
                           && st.images == s.images + {st.fileName}
    ensures st.Finished? ==> st.store == s
    ensures form.imageData.Null? ==> st == Finished(s, Throws(NullPointerException))
    ensures form.imageData.Value? && (form.imageData.value.size == 0 || conversionErrors || !IsValid(form))
            ==> st == Finished(s, Ok(InsertFormView))
    ensures && form.imageData.Value? && form.imageData.value.size > 0 && !conversionErrors && IsValid(form)
            && ImageFileName(random, form.imageData.value) in s.images
            ==> st == Finished(s, Throws(FileAlreadyExists))
  {
    match form.imageData
    case Null => Finished(s, Throws(NullPointerException))
    case Value(upload) =>
      if upload.size == 0 || conversionErrors || !IsValid(form) then
        Finished(s, Ok(InsertFormView))
      else
        var fileName := ImageFileName(random, upload);
        if fileName in s.images then Finished(s, Throws(FileAlreadyExists))
        else Copied(s.images + {fileName}, fileName)
  }

  /** The new row: the form's properties copied over, then the image name and the id set. */
  function ToEmployee(form: InsertEmployeeForm, image: string, id: int): (e: Employee)
    requires IsValid(form)
    ensures CarriesForm(e, form)
  {
    Employee(id, form.name.value, image, form.gender.value, form.hireDate.value,
             form.mailAddress.value, form.zipCode.value, form.address.value,
             form.telephone.value, form.salary.value, form.characteristics.value,
             form.dependentsCount.value)
  }

  /** The row holds every posted value except the id, which is assigned, and the image. */
  predicate CarriesForm(e: Employee, form: InsertEmployeeForm)
  {
    && form.name == Value(e.name)
    && form.gender == Value(e.gender)
    && form.hireDate == Value(e.hireDate)
    && form.mailAddress == Value(e.mailAddress)
    && form.zipCode == Value(e.zipCode)
    && form.address == Value(e.address)
    && form.telephone == Value(e.telephone)
    && form.salary == Value(e.salary)
    && form.characteristics == Value(e.characteristics)
    && form.dependentsCount == Value(e.dependentsCount)
  }

  /** `findMaxId() + 1`: unboxing the `null` of an empty table throws. */
  function NextId(maxId: Nullable<int>): Result<int>
  {
    match maxId
    case Null => Throws(NullPointerException)
    case Value(m) => Ok(m + 1)
  }

  /**
   `insert(form)`, as written: check the image and the form, copy the image
   under `random ++ originalName` with `0 <= random < 100`, then insert the
   row under id `findMaxId() + 1`.
   */
  function InsertEmployee(s: Store, form: InsertEmployeeForm, conversionErrors: bool, random: nat)
    : (r: (Store, Result<View>))
    requires random < 100
    ensures form.imageData.Null? ==> r == (s, Throws(NullPointerException))
    ensures form.imageData.Value? && (form.imageData.value.size == 0 || conversionErrors || !IsValid(form))
            ==> r == (s, Ok(InsertFormView))
    ensures && form.imageData.Value? && form.imageData.value.size > 0 && !conversionErrors && IsValid(form)
            && ImageFileName(random, form.imageData.value) in s.images
            ==> r == (s, Throws(FileAlreadyExists))
    ensures r.1 == Ok(ListRedirect) <==> Admissible(s, form, conversionErrors, random) && |s.table| > 0
    ensures r.1 != Ok(ListRedirect) ==> r.0.table == s.table
    ensures r.1 == Ok(ListRedirect) ==> |r.0.table| == |s.table| + 1
    ensures r.1 == Ok(ListRedirect) ==>
              var row := r.0.table[|s.table|];
              && r.0.table[..|s.table|] == s.table
              && row.id == FindMaxId(s.table).value + 1
              && (forall e :: e in s.table ==> e.id < row.id)
              && row.image == ImageFileName(random, form.imageData.value)
              && CarriesForm(row, form)
              && r.0.images == s.images + {row.image}
    ensures Admissible(s, form, conversionErrors, random) && |s.table| == 0 ==>
              r == (Store(s.table, s.images + {ImageFileName(random, form.imageData.value)}),
                    Throws(NullPointerException))
    ensures UniqueIds(s.table) ==> UniqueIds(r.0.table)
  {
    match StageImage(s, form, conversionErrors, random)
    case Finished(s', outcome) => (s', outcome)
    case Copied(images, fileName) =>
      match NextId(FindMaxId(s.table))
      case Throws(x) => (Store(s.table, images), Throws(x))
      case Ok(id) =>
        var row := ToEmployee(form, fileName, id);
        var t' := Insert(s.table, row).value;
        assert UniqueIds(s.table) ==> UniqueIds(t') by {
          if UniqueIds(s.table) {
            InsertKeepsUniqueIds(s.table, row);
          }
        }
        (Store(t', images), Ok(ListRedirect))
  }

  /** The id posted with the form plays no part: it is overwritten by the assigned one. */
  lemma PostedIdIsIgnored(s: Store, form: InsertEmployeeForm, conversionErrors: bool,
                          random: nat, id: Nullable<int>)
    requires random < 100
    ensures InsertEmployee(s, form.(id := id), conversionErrors, random)
            == InsertEmployee(s, form, conversionErrors, random)
  {
  }

  /** A successful insert stores a row that loads back under a fresh id. */
  lemma InsertedRowLoadsBack(s: Store, form: InsertEmployeeForm, conversionErrors: bool, random: nat)
    requires random < 100 && UniqueIds(s.table)
    requires InsertEmployee(s, form, conversionErrors, random).1 == Ok(ListRedirect)
    ensures var t' := InsertEmployee(s, form, conversionErrors, random).0.table;
            var row := t'[|s.table|];
            && row.id !in Ids(s.table)
            && Load(t', row.id) == Ok(row)
            && CarriesForm(row, form)
  {
    var t' := InsertEmployee(s, form, conversionErrors, random).0.table;
    var row := t'[|s.table|];
    assert t' == s.table + [row];
    assert Insert(s.table, row) == Ok(t');
    LoadAfterInsert(s.table, row, row.id);
  }

  /**
   The first employee can never be registered: on an empty table every
   admissible request stores its image and then throws, inserting nothing.
   */
  lemma FirstInsertFails(form: InsertEmployeeForm, conversionErrors: bool, random: nat, images: set<string>)
    requires random < 100 && Admissible(Store([], images), form, conversionErrors, random)
    ensures InsertEmployee(Store([], images), form, conversionErrors, random)
            == (Store([], images + {ImageFileName(random, form.imageData.value)}), Throws(NullPointerException))
  {
    assert FindMaxId([]) == Null;
  }

  /** An admissible first request exists: a filled-in form with a fresh image name. */
  lemma FirstInsertFailsExample(upload: Upload, images: set<string>)
    requires upload.size > 0 && ImageFileName(7, upload) !in images
    ensures var form := InsertEmployeeForm(
                          Null, Value("Taro"), Value(upload), Value("M"), Value(0),
                          Value("t@x"), Value("1"), Value("Tokyo"), Value("0"), Value(0),
                          Value("kind"), Value(0));
            && Admissible(Store([], images), form, false, 7)
            && InsertEmployee(Store([], images), form, false, 7)
               == (Store([], images + {ImageFileName(7, upload)}), Throws(NullPointerException))
  {
    var form := InsertEmployeeForm(
                  Null, Value("Taro"), Value(upload), Value("M"), Value(0),
                  Value("t@x"), Value("1"), Value("Tokyo"), Value("0"), Value(0),
                  Value("kind"), Value(0));
    assert !IsTrimmed("Taro"[0]) && !IsTrimmed("M"[0]) && !IsTrimmed("t@x"[0]);
    assert !IsTrimmed("1"[0]) && !IsTrimmed("Tokyo"[0]) && !IsTrimmed("0"[0]);
    assert !IsTrimmed("kind"[0]);
    assert IsValid(form);
    FirstInsertFails(form, false, 7, images);
  }

  // ---------------------------------------------------------------------
  // insert, with the empty table handled

  /** `findMaxId() + 1` with `null` read as 0, so the first employee gets id 1. */
  function NextIdFromZero(maxId: Nullable<int>): int
  {
    match maxId
    case Null => 1
    case Value(m) => m + 1
  }

  /** `insert(form)` with the id rule that also covers the empty table. */
  function InsertEmployeeFromZero(s: Store, form: InsertEmployeeForm, conversionErrors: bool, random: nat)
    : (r: (Store, Result<View>))
    requires random < 100
    ensures r.1 == Ok(ListRedirect) <==> Admissible(s, form, conversionErrors, random)
    ensures r.1 != Ok(ListRedirect) ==> r == (s, r.1)
    ensures r.1 == Ok(ListRedirect) ==> |r.0.table| == |s.table| + 1
    ensures r.1 == Ok(ListRedirect) ==>
              var row := r.0.table[|s.table|];
              && r.0.table[..|s.table|] == s.table
              && (forall e :: e in s.table ==> e.id < row.id)
              && row.id == NextIdFromZero(FindMaxId(s.table))
              && (|s.table| == 0 ==> row.id == 1)
              && row.image == ImageFileName(random, form.imageData.value)
              && CarriesForm(row, form)
              && r.0.images == s.images + {row.image}
    ensures UniqueIds(s.table) ==> UniqueIds(r.0.table)
  {
    match StageImage(s, form, conversionErrors, random)
    case Finished(s', outcome) => (s', outcome)
    case Copied(images, fileName) =>
      var row := ToEmployee(form, fileName, NextIdFromZero(FindMaxId(s.table)));
      var t' := Insert(s.table, row).value;
      assert UniqueIds(s.table) ==> UniqueIds(t') by {
        if UniqueIds(s.table) {
          InsertKeepsUniqueIds(s.table, row);
        }
      }
      (Store(t', images), Ok(ListRedirect))
  }

  /** On a non-empty table both id rules behave identically. */
  lemma FromZeroAgreesOnNonEmptyTable(s: Store, form: InsertEmployeeForm, conversionErrors: bool, random: nat)
    requires random < 100 && |s.table| > 0
    ensures InsertEmployeeFromZero(s, form, conversionErrors, random)
            == InsertEmployee(s, form, conversionErrors, random)
  {
  }

  /** The ids of the table are 1, 2, ..., n in storage order. */
  predicate IdsCountFromOne(t: Table)
  {
    forall i :: 0 <= i < |t| ==> t[i].id == i + 1
  }

  /**
   One request after another from an empty table: every successful insert
   extends the ids 1..n to 1..n+1, so the ids stay distinct and gapless.
   */
  lemma InsertFromZeroKeepsIdsGapless(s: Store, form: InsertEmployeeForm, conversionErrors: bool, random: nat)
    requires random < 100 && IdsCountFromOne(s.table)
    ensures IdsCountFromOne(InsertEmployeeFromZero(s, form, conversionErrors, random).0.table)
    ensures UniqueIds(InsertEmployeeFromZero(s, form, conversionErrors, random).0.table)
  {
    var r := InsertEmployeeFromZero(s, form, conversionErrors, random);
    var n := |s.table|;
    if r.1 == Ok(ListRedirect) && n > 0 {
      var m := FindMaxId(s.table);
      assert s.table[n - 1] in s.table;
      assert m.value == n by {
        var e :| e in s.table && e.id == m.value;
        var i :| 0 <= i < n && s.table[i] == e;
      }
      assert r.0.table[n].id == n + 1;
    }
  }
}

=== FILE: employees.dfy ===
/**
 The `employees` table: one immutable row per employee, and the orderings
 and filters the repository's SQL applies to it.
 */
module Employees {
  import opened Platform

  /**
   One row of `employees`, all twelve columns. The hire date is a day number;
   the image is the stored file name.
   */
  datatype Employee = Employee(
    id: int,
    name: string,
    image: string,
    gender: string,
    hireDate: int,
    mailAddress: string,
    zipCode: string,
    address: string,
    telephone: string,
    salary: int,
    characteristics: string,
    dependentsCount: int)

  /** The rows of the table, in storage order. */
  type Table = seq<Employee>

  function Ids(t: Table): set<int>
  {
    set e | e in t :: e.id
  }

  /** `id` is the primary key: no two rows share it. */
  predicate UniqueIds(t: Table)
  {
    forall i, j :: 0 <= i < |t| && 0 <= j < |t| && t[i].id == t[j].id ==> i == j
  }

  // ---------------------------------------------------------------------
  // ORDER BY hire_date

  predicate SortedByHireDate(s: seq<Employee>)
  {
    forall i, j :: 0 <= i < j < |s| ==> s[i].hireDate <= s[j].hireDate
  }

  /** Places `e` before the first row not hired earlier than it. */
  function InsertByHireDate(e: Employee, s: seq<Employee>): (r: seq<Employee>)
    requires SortedByHireDate(s)
    ensures SortedByHireDate(r)
    ensures multiset(r) == multiset(s) + multiset{e}
    ensures |r| == |s| + 1
    decreases |s|
  {
    if |s| == 0 || e.hireDate <= s[0].hireDate then [e] + s
    else
      var rest := InsertByHireDate(e, s[1..]);
      assert s == [s[0]] + s[1..];
      assert forall k :: 0 <= k < |rest| ==> s[0].hireDate <= rest[k].hireDate by {
        forall k | 0 <= k < |rest|
          ensures s[0].hireDate <= rest[k].hireDate
        {
          assert rest[k] in multiset(rest);
          assert rest[k] in s[1..] || rest[k] == e;
        }
      }
      [s[0]] + rest
  }

  /**
   `ORDER BY hire_date`. Rows with the same hire date keep their storage
   order, one of the orders the database may return.
   */
  function SortByHireDate(s: seq<Employee>): (r: seq<Employee>)
    ensures SortedByHireDate(r)
    ensures multiset(r) == multiset(s)
    ensures |r| == |s|
    decreases |s|
  {
    if |s| == 0 then []
    else
      assert s == [s[0]] + s[1..];
      InsertByHireDate(s[0], SortByHireDate(s[1..]))
  }

  // ---------------------------------------------------------------------
  // WHERE name LIKE '%pattern%'

  /** The rows whose name contains `pattern`, in storage order. */
  function FilterByName(t: Table, pattern: string): (r: seq<Employee>)
    ensures |r| <= |t|
    ensures forall e :: multiset(r)[e] == if Contains(e.name, pattern) then multiset(t)[e] else 0
    decreases |t|
  {
    if |t| == 0 then []
    else
      assert t == [t[0]] + t[1..];
      (if Contains(t[0].name, pattern) then [t[0]] else []) + FilterByName(t[1..], pattern)
  }

  /** `SELECT COUNT(*) ... WHERE name LIKE '%pattern%'`, counted row by row. */
  function CountMatching(t: Table, pattern: string): nat
    decreases |t|
  {
    if |t| == 0 then 0
    else (if Contains(t[0].name, pattern) then 1 else 0) + CountMatching(t[1..], pattern)
  }

  /** Counting the matching rows gives the number of rows the filter keeps. */
  lemma {:induction false} CountMatchingIsFilterLength(t: Table, pattern: string)
    ensures CountMatching(t, pattern) == |FilterByName(t, pattern)|
    decreases |t|
  {
    if |t| > 0 {
      CountMatchingIsFilterLength(t[1..], pattern);
    }
  }

  /** The empty pattern keeps every row, in order. */
  lemma {:induction false} FilterByEmptyNameKeepsAll(t: Table)
    ensures FilterByName(t, "") == t
    decreases |t|
  {
    if |t| > 0 {
      ContainsEmpty(t[0].name);
      FilterByEmptyNameKeepsAll(t[1..]);
      assert t == [t[0]] + t[1..];
    }
  }
}

=== FILE: forms.dfy ===
/**
 The form posted to register a new employee, and the validity its field
 annotations demand.
 */
module Forms {
  import opened Platform

  /** An uploaded file. `isEmpty()` holds when it has no content. */
  datatype Upload = Upload(originalFilename: string, size: nat)

  /** The twelve fields of the form, each of which the binder may leave `null`. */
  datatype InsertEmployeeForm = InsertEmployeeForm(
    id: Nullable<int>,
    name: Nullable<string>,
    imageData: Nullable<Upload>,
    gender: Nullable<string>,
    hireDate: Nullable<int>,
    mailAddress: Nullable<string>,
    zipCode: Nullable<string>,
    address: Nullable<string>,
    telephone: Nullable<string>,
    salary: Nullable<int>,
    characteristics: Nullable<string>,
    dependentsCount: Nullable<int>)

  /** The no-argument constructor: every field `null`. */
  const Blank: InsertEmployeeForm :=
    InsertEmployeeForm(Null, Null, Null, Null, Null, Null, Null, Null, Null, Null, Null, Null)

  // ---------------------------------------------------------------------
  // Getters and setters

  datatype Field =
    | Id | Name | ImageData | Gender | HireDate | MailAddress | ZipCode
    | Address | Telephone | Salary | Characteristics | DependentsCount

  const AllFields: seq<Field> :=
    [Id, Name, ImageData, Gender, HireDate, MailAddress, ZipCode,
     Address, Telephone, Salary, Characteristics, DependentsCount]

  /** What a getter returns: an `Integer`/`Date`, a `String`, or a `MultipartFile`. */
  datatype FieldValue =
    | Number(n: Nullable<int>)
    | Text(s: Nullable<string>)
    | File(f: Nullable<Upload>)

  /** Java's types: the value a setter accepts for each field. */
  predicate Fits(field: Field, v: FieldValue)
  {
    match field
    case Id | HireDate | Salary | DependentsCount => v.Number?
    case ImageData => v.File?
    case _ => v.Text?
  }

  /** The getter of `field`. */
  function Get(form: InsertEmployeeForm, field: Field): (v: FieldValue)
    ensures Fits(field, v)
  {
    match field
    case Id => Number(form.id)
    case Name => Text(form.name)
    case ImageData => File(form.imageData)
    case Gender => Text(form.gender)
    case HireDate => Number(form.hireDate)
    case MailAddress => Text(form.mailAddress)
    case ZipCode => Text(form.zipCode)
    case Address => Text(form.address)
    case Telephone => Text(form.telephone)
    case Salary => Number(form.salary)
    case Characteristics => Text(form.characteristics)
    case DependentsCount => Number(form.dependentsCount)
  }

  /**
   The setter of `field`: the matching getter returns the new value
   afterwards, and every other getter returns what it returned before.
   */
  function Set(form: InsertEmployeeForm, field: Field, v: FieldValue): (r: InsertEmployeeForm)
    requires Fits(field, v)
    ensures Get(r, field) == v
    ensures forall g :: g != field ==> Get(r, g) == Get(form, g)
  {
    match field
    case Id => form.(id := v.n)
    case Name => form.(name := v.s)
    case ImageData => form.(imageData := v.f)
    case Gender => form.(gender := v.s)
    case HireDate => form.(hireDate := v.n)
    case MailAddress => form.(mailAddress := v.s)
    case ZipCode => form.(zipCode := v.s)
    case Address => form.(address := v.s)
    case Telephone => form.(telephone := v.s)
    case Salary => form.(salary := v.n)
    case Characteristics => form.(characteristics := v.s)
    case DependentsCount => form.(dependentsCount := v.n)
  }

  /** Setting a field to what its getter returns changes nothing. */
  lemma SetGetIsIdentity(form: InsertEmployeeForm, field: Field)
    ensures Set(form, field, Get(form, field)) == form
  {
  }

  /** The all-arguments constructor stores each argument, unchanged, in its own field. */
  lemma ConstructorStoresArguments(
    id: Nullable<int>, name: Nullable<string>, imageData: Nullable<Upload>, gender: Nullable<string>,
    hireDate: Nullable<int>, mailAddress: Nullable<string>, zipCode: Nullable<string>,
    address: Nullable<string>, telephone: Nullable<string>, salary: Nullable<int>,
    characteristics: Nullable<string>, dependentsCount: Nullable<int>)
    ensures var form := InsertEmployeeForm(id, name, imageData, gender, hireDate, mailAddress,
                                           zipCode, address, telephone, salary, characteristics,
                                           dependentsCount);
            && Get(form, Id) == Number(id) && Get(form, Name) == Text(name)
            && Get(form, ImageData) == File(imageData) && Get(form, Gender) == Text(gender)
            && Get(form, HireDate) == Number(hireDate) && Get(form, MailAddress) == Text(mailAddress)
            && Get(form, ZipCode) == Text(zipCode) && Get(form, Address) == Text(address)
            && Get(form, Telephone) == Text(telephone) && Get(form, Salary) == Number(salary)
            && Get(form, Characteristics) == Text(characteristics)
            && Get(form, DependentsCount) == Number(dependentsCount)
  {
  }

  // ---------------------------------------------------------------------
  // Bean-validation annotations

  datatype Constraint = NotBlank | NotNull | MinZero

  /** The annotations on each field of the form. */
  function Annotations(field: Field): set<Constraint>
  {
    match field
    case Id => {}
    case Name | Gender | MailAddress | ZipCode | Address | Telephone | Characteristics => {NotBlank}
    case ImageData | HireDate | DependentsCount => {NotNull}
    case Salary => {NotNull, MinZero}
  }

  /**
   What each annotation accepts. `@NotBlank` rejects `null` and strings that
   trim to nothing; `@Min(0)` accepts `null` and numbers from 0 up.
   */
  predicate Satisfies(v: FieldValue, c: Constraint)
  {
    match c
    case NotBlank => v.Text? && v.s.Value? && |Trim(v.s.value)| > 0
    case NotNull =>
      (match v
       case Number(n) => n.Value?
       case Text(s) => s.Value?
       case File(f) => f.Value?)
    case MinZero => v.Number? && (v.n.Value? ==> v.n.value >= 0)
  }

  /** Some annotation on `field` rejects its value. */
  predicate Violated(form: InsertEmployeeForm, field: Field)
  {
    exists c :: c in Annotations(field) && !Satisfies(Get(form, field), c)
  }

  /** The fields the validator reports an error on. */
  function Violations(form: InsertEmployeeForm): set<Field>
  {
    set f | f in AllFields && Violated(form, f)
  }

  /** A non-null string holding a character other than white space. */
  predicate Filled(s: Nullable<string>)
  {
    s.Value? && HasVisibleChar(s.value)
  }

  /**
   The form is acceptable: seven text fields filled in, the image, hire date,
   salary and dependents count present, and the salary not negative. The id
   and the sign of the dependents count are not constrained.
   */
  predicate IsValid(form: InsertEmployeeForm)
  {
    && Filled(form.name)
    && form.imageData.Value?
    && Filled(form.gender)
    && form.hireDate.Value?
    && Filled(form.mailAddress)
    && Filled(form.zipCode)
    && Filled(form.address)
    && Filled(form.telephone)
    && form.salary.Value? && form.salary.value >= 0
    && Filled(form.characteristics)
    && form.dependentsCount.Value?
  }

  lemma NotBlankMeansFilled(s: Nullable<string>)
    ensures Satisfies(Text(s), NotBlank) <==> Filled(s)
  {
    if s.Value? {
      TrimNonEmptyIffVisible(s.value);
    }
  }

  lemma OneAnnotation(form: InsertEmployeeForm, field: Field, c: Constraint)
    requires Annotations(field) == {c}
    ensures Violated(form, field) <==> !Satisfies(Get(form, field), c)
  {
    if !Satisfies(Get(form, field), c) {
      assert c in Annotations(field);
    }
  }

  /** The condition the annotations put on one field, spelled out. */
  lemma {:induction false} ViolatedIff(form: InsertEmployeeForm, field: Field)
    ensures Violated(form, field) <==>
              match field
              case Id => false
              case Name => !Filled(form.name)
              case ImageData => form.imageData.Null?
              case Gender => !Filled(form.gender)
              case HireDate => form.hireDate.Null?
              case MailAddress => !Filled(form.mailAddress)
              case ZipCode => !Filled(form.zipCode)
              case Address => !Filled(form.address)
              case Telephone => !Filled(form.telephone)
              case Salary => form.salary.Null? || form.salary.value < 0
              case Characteristics => !Filled(form.characteristics)
              case DependentsCount => form.dependentsCount.Null?
  {
    match field
    case Name =>
      NotBlankMeansFilled(form.name);
      OneAnnotation(form, Name, NotBlank);
    case Gender =>
      NotBlankMeansFilled(form.gender);
      OneAnnotation(form, Gender, NotBlank);
    case MailAddress =>
      NotBlankMeansFilled(form.mailAddress);
      OneAnnotation(form, MailAddress, NotBlank);
    case ZipCode =>
      NotBlankMeansFilled(form.zipCode);
      OneAnnotation(form, ZipCode, NotBlank);
    case Address =>
      NotBlankMeansFilled(form.address);
      OneAnnotation(form, Address, NotBlank);
    case Telephone =>
      NotBlankMeansFilled(form.telephone);
      OneAnnotation(form, Telephone, NotBlank);
    case Characteristics =>
      NotBlankMeansFilled(form.characteristics);
      OneAnnotation(form, Characteristics, NotBlank);
    case Salary =>
      if form.salary.Value? && form.salary.value < 0 {
        assert !Satisfies(Get(form, Salary), MinZero);
      }
      if form.salary.Null? {
        assert !Satisfies(Get(form, Salary), NotNull);
      }
    case ImageData =>
      if form.imageData.Null? {
        assert !Satisfies(Get(form, ImageData), NotNull);
      }
    case HireDate =>
      if form.hireDate.Null? {
        assert !Satisfies(Get(form, HireDate), NotNull);
      }
    case DependentsCount =>
      if form.dependentsCount.Null? {
        assert !Satisfies(Get(form, DependentsCount), NotNull);
      }
    case Id =>
  }

  /** A form is valid exactly when the annotations report no field. */
  lemma ValidIffNoViolations(form: InsertEmployeeForm)
    ensures IsValid(form) <==> Violations(form) == {}
  {
    forall f | f in AllFields
      ensures f in Violations(form) <==> Violated(form, f)
    {
    }
    ViolatedIff(form, Id);
    ViolatedIff(form, Name);
    ViolatedIff(form, ImageData);
    ViolatedIff(form, Gender);
    ViolatedIff(form, HireDate);
    ViolatedIff(form, MailAddress);
    ViolatedIff(form, ZipCode);
    ViolatedIff(form, Address);
    ViolatedIff(form, Telephone);
    ViolatedIff(form, Salary);
    ViolatedIff(form, Characteristics);
    ViolatedIff(form, DependentsCount);
    if IsValid(form) {
      forall f | f in Violations(form)
        ensures false
      {
        ViolatedIff(form, f);
      }
    }
  }

  /**
   A form left as the no-argument constructor builds it is rejected on every
   annotated field, and only the id escapes.
   */
  lemma BlankViolatesEveryAnnotatedField()
    ensures Violations(Blank) == set f | f in AllFields && f != Id
    ensures !IsValid(Blank)
  {
    forall f | f in AllFields
      ensures f in Violations(Blank) <==> f != Id
    {
      ViolatedIff(Blank, f);
    }
  }

  /**
   Neither the id nor the sign of the dependents count matters to validity:
   any id, `null` included, and any count, negative included, keep a valid
   form valid.
   */
  lemma IdAndDependentsSignUnconstrained(form: InsertEmployeeForm, id: Nullable<int>, count: int)
    requires IsValid(form)
    ensures IsValid(Set(form, Id, Number(id)))
    ensures IsValid(Set(form, DependentsCount, Number(Value(count))))
    ensures Violations(Set(form, Id, Number(id))) == {}
  {
    ValidIffNoViolations(Set(form, Id, Number(id)));
  }
}

=== FILE: pagination.dfy ===
/**
 The paging information carried by a list request: the page asked for, the
 page size, the number of pages and the first page.
 */
module Pagination {
  import opened Platform

  /** One `Paging` object. Getters are the field names, setters are `p.(f := v)`. */
  datatype Paging = Paging(nowPage: int, pageSize: int, totalPage: int, startPage: int)

  /** A freshly constructed `Paging`: first page, five rows a page, no page count yet. */
  const Default: Paging := Paging(1, 5, 0, 1)

  /**
   The page count `setTotalPage` computes: the quotient, plus one when the
   division leaves a remainder. For a record count and a positive page size
   this is the ceiling of their quotient.
   */
  function PageCount(totalRecord: int, pageSize: int): (pages: int)
    requires pageSize != 0
    ensures totalRecord >= 0 && pageSize > 0 ==>
              && pages >= 0
              && pages * pageSize >= totalRecord
              && (pages - 1) * pageSize < totalRecord
  {
    assert totalRecord >= 0 && pageSize > 0 ==>
             && Quot(totalRecord, pageSize) == totalRecord / pageSize
             && Rem(totalRecord, pageSize) == totalRecord % pageSize
             && totalRecord == (totalRecord / pageSize) * pageSize + totalRecord % pageSize
    by {
      if totalRecord >= 0 && pageSize > 0 {
        QuotRemOfNaturals(totalRecord, pageSize);
      }
    }
    if Rem(totalRecord, pageSize) == 0 then Quot(totalRecord, pageSize)
    else Quot(totalRecord, pageSize) + 1
  }

  /**
   `setTotalPage(totalRecord)`: stores the page count for the CURRENT page
   size and changes nothing else. A page size of zero makes the division throw.
   */
  function SetTotalPage(p: Paging, totalRecord: int): (r: Result<Paging>)
    ensures r.Throws? <==> p.pageSize == 0
    ensures r.Throws? ==> r.error == ArithmeticException
    ensures r.Ok? ==> r.value.nowPage == p.nowPage && r.value.pageSize == p.pageSize
                      && r.value.startPage == p.startPage
    ensures r.Ok? && totalRecord >= 0 && p.pageSize > 0 ==>
              && r.value.totalPage >= 0
              && r.value.totalPage * p.pageSize >= totalRecord
              && (r.value.totalPage - 1) * p.pageSize < totalRecord
  {
    if p.pageSize == 0 then Throws(ArithmeticException)
    else Ok(p.(totalPage := PageCount(totalRecord, p.pageSize)))
  }

  /** Multiplying by a positive page size keeps the order of page numbers. */
  lemma MulMonotone(a: int, b: int, size: int)
    requires a <= b && size > 0
    ensures a * size <= b * size
  {
    assert b * size - a * size == (b - a) * size;
  }

  /**
   The page count is the LEAST number of pages that hold every record:
   `k` pages of `pageSize` rows are enough exactly when `k >= PageCount`.
   */
  lemma {:induction false} PageCountIsLeastCover(totalRecord: nat, pageSize: int, k: int)
    requires pageSize > 0
    ensures k * pageSize >= totalRecord <==> k >= PageCount(totalRecord, pageSize)
  {
    var pages := PageCount(totalRecord, pageSize);
    if k >= pages {
      MulMonotone(pages, k, pageSize);
    } else {
      MulMonotone(k, pages - 1, pageSize);
    }
  }

  /** No records give no pages. */
  lemma PageCountOfZero(pageSize: int)
    requires pageSize > 0
    ensures PageCount(0, pageSize) == 0
  {
  }

  /** A whole number of full pages gives exactly that number of pages. */
  lemma {:induction false} PageCountOfFullPages(k: nat, pageSize: int)
    requires pageSize > 0
    ensures PageCount(k * pageSize, pageSize) == k
  {
    PageCountIsLeastCover(k * pageSize, pageSize, k);
    PageCountIsLeastCover(k * pageSize, pageSize, k - 1);
    MulMonotone(k - 1, k, pageSize);
    assert (k - 1) * pageSize == k * pageSize - pageSize;
  }

  /** More records never give fewer pages. */
  lemma {:induction false} PageCountMonotone(m: nat, n: nat, pageSize: int)
    requires m <= n && pageSize > 0
    ensures PageCount(m, pageSize) <= PageCount(n, pageSize)
  {
    PageCountIsLeastCover(m, pageSize, PageCount(n, pageSize));
  }

  /**
   `setPageSize` does not recompute the page count: after it, `totalPage`
   still reflects the page size in force when `setTotalPage` ran.
   */
  lemma PageSizeChangeKeepsTotalPage(p: Paging, totalRecord: int, size: int)
    requires p.pageSize != 0
    ensures SetTotalPage(p, totalRecord).value.(pageSize := size).totalPage
            == PageCount(totalRecord, p.pageSize)
  {
  }

  /**
   An instance of the stale count: ten records at the default size give two
   pages; shrinking the size to three afterwards leaves two, not four.
   */
  lemma StaleTotalPageExample()
    ensures SetTotalPage(Default, 10).value.(pageSize := 3).totalPage == 2
    ensures PageCount(10, 3) == 4
  {
  }
}

=== FILE: platform.dfy ===
/**
 The platform under the application: Java's `null`, `int` division,
 `String.trim`, `String.contains` and `Integer.toString`, and the exceptions
 that Java, Spring's JDBC template, the database and the file system raise.
 */
module Platform {

  /** A reference that may be `null`. */
  datatype Nullable<+T> = Null | Value(value: T)

  /** The exceptions the modelled code can end in. */
  datatype Exception =
    | ArithmeticException     // int division or remainder by zero
    | NullPointerException    // dereferencing or unboxing null
    | EmptyResultDataAccess   // queryForObject saw no row
    | IncorrectResultSize     // queryForObject saw more than one row
    | DuplicateKey            // an INSERT repeated the primary key id
    | NegativeLimitOrOffset   // the database refused a negative LIMIT or OFFSET
    | FileAlreadyExists       // Files.copy onto a path that already exists

  /** Normal completion with a value, or an exception. */
  datatype Result<+T> = Ok(value: T) | Throws(error: Exception)

  function Abs(x: int): nat
  {
    if x < 0 then -x else x
  }

  /** Euclidean division of naturals leaves a remainder below the divisor. */
  lemma NaturalDivision(x: nat, y: nat)
    requires y > 0
    ensures 0 <= y * (x / y) <= x
    ensures x - y * (x / y) < y
  {
    assert x == y * (x / y) + x % y;
  }

  /** Flipping the sign of one or both factors flips or keeps the product's. */
  lemma MulSigns(x: int, y: int)
    ensures (-x) * y == -(x * y) && x * (-y) == -(x * y) && (-x) * (-y) == x * y
  {
  }

  /**
   Java's `/` on `int`: the quotient is truncated toward zero, so `b * q` is
   the multiple of `b` closest to `a` on the side of zero.
   */
  function Quot(a: int, b: int): (q: int)
    requires b != 0
    ensures a >= 0 ==> 0 <= b * q <= a
    ensures a < 0 ==> a <= b * q <= 0
    ensures Abs(a - b * q) < Abs(b)
  {
    var m := Abs(a) / Abs(b);
    var q := if (a < 0) == (b < 0) then m else -m;
    assert b * q == if a >= 0 then Abs(b) * m else -(Abs(b) * m) by {
      MulSigns(Abs(b), m);
    }
    NaturalDivision(Abs(a), Abs(b));
    q
  }

  /** A non-zero multiple of `b` is at least as far from zero as `b`. */
  lemma MultipleIsAtLeastDivisor(b: int, x: int)
    requires b != 0 && x != 0
    ensures Abs(b * x) >= Abs(b)
  {
    var p: nat := Abs(b) * Abs(x);
    assert p >= Abs(b) by {
      var rest: nat := Abs(b) * (Abs(x) - 1);
      assert p == rest + Abs(b);
    }
    if b < 0 && x < 0 {
      MulSigns(-b, -x);
    } else if b < 0 {
      MulSigns(-b, x);
    } else if x < 0 {
      MulSigns(b, -x);
    }
  }

  /** A multiple of `b` leaves no remainder. */
  lemma MultipleHasNoRemainder(b: int, k: int)
    requires b != 0
    ensures (b * k) % b == 0
  {
    var d := (b * k) / b;
    var r := (b * k) % b;
    assert b * k == b * d + r;
    assert b * (k - d) == b * k - b * d;
    if k != d {
      MultipleIsAtLeastDivisor(b, k - d);
    }
  }

  /** Java's `%` on `int`: the remainder takes the sign of the dividend. */
  function Rem(a: int, b: int): (r: int)
    requires b != 0
    ensures Abs(r) < Abs(b)
    ensures r != 0 ==> (r < 0 <==> a < 0)
    ensures (a - r) % b == 0
  {
    MultipleHasNoRemainder(b, Quot(a, b));
    a - b * Quot(a, b)
  }

  /** On a non-negative dividend and a positive divisor Java and Dafny agree. */
  lemma QuotRemOfNaturals(a: int, b: int)
    requires a >= 0 && b > 0
    ensures Quot(a, b) == a / b && Rem(a, b) == a % b
    ensures a == (a / b) * b + a % b
  {
  }

  // ---------------------------------------------------------------------
  // String.trim and blank strings

  /** `String.trim` treats every char at or below U+0020 as white space. */
  predicate IsTrimmed(c: char)
  {
    c <= ' '
  }

  function TrimStart(s: string): (r: string)
    decreases |s|
  {
    if |s| > 0 && IsTrimmed(s[0]) then TrimStart(s[1..]) else s
  }

  function TrimEnd(s: string): (r: string)
    decreases |s|
  {
    if |s| > 0 && IsTrimmed(s[|s| - 1]) then TrimEnd(s[..|s| - 1]) else s
  }

  /** `String.trim`: drops leading and trailing white space. */
  function Trim(s: string): string
  {
    TrimEnd(TrimStart(s))
  }

  /** `s` holds at least one character that `trim` keeps. */
  predicate HasVisibleChar(s: string)
  {
    exists i :: 0 <= i < |s| && !IsTrimmed(s[i])
  }

  lemma {:induction false} TrimStartKeepsVisible(s: string)
    ensures |TrimStart(s)| == 0 <==> !HasVisibleChar(s)
    ensures |TrimStart(s)| > 0 ==> !IsTrimmed(TrimStart(s)[0])
    decreases |s|
  {
    if |s| > 0 && IsTrimmed(s[0]) {
      TrimStartKeepsVisible(s[1..]);
      if HasVisibleChar(s) {
        var i :| 0 <= i < |s| && !IsTrimmed(s[i]);
        assert !IsTrimmed(s[1..][i - 1]);
      }
      if HasVisibleChar(s[1..]) {
        var i :| 0 <= i < |s[1..]| && !IsTrimmed(s[1..][i]);
        assert !IsTrimmed(s[i + 1]);
      }
    } else if |s| > 0 {
      assert !IsTrimmed(s[0]);
    }
  }

  lemma {:induction false} TrimEndKeepsFirst(s: string)
    requires |s| > 0 && !IsTrimmed(s[0])
    ensures |TrimEnd(s)| > 0
    decreases |s|
  {
    if IsTrimmed(s[|s| - 1]) {
      TrimEndKeepsFirst(s[..|s| - 1]);
    }
  }

  /** `s.trim().length() > 0` exactly when some character of `s` is above U+0020. */
  lemma TrimNonEmptyIffVisible(s: string)
    ensures |Trim(s)| > 0 <==> HasVisibleChar(s)
  {
    TrimStartKeepsVisible(s);
    if |TrimStart(s)| > 0 {
      TrimEndKeepsFirst(TrimStart(s));
    }
  }

  // ---------------------------------------------------------------------
  // String.contains, the reading given to `LIKE '%x%'`

  /** `p` occurs in `s` starting at index `i`. */
  predicate OccursAt(s: string, p: string, i: int)
  {
    0 <= i && i + |p| <= |s| && s[i..i + |p|] == p
  }

  predicate StartsWith(s: string, p: string)
  {
    |p| <= |s| && s[..|p|] == p
  }

  /** `s.contains(p)`, scanning left to right. */
  predicate Contains(s: string, p: string)
    decreases |s|
  {
    StartsWith(s, p) || (|s| > 0 && Contains(s[1..], p))
  }

  /** The scan finds `p` exactly when `p` occurs somewhere in `s`. */
  lemma {:induction false} ContainsIffOccurs(s: string, p: string)
    ensures Contains(s, p) <==> exists i :: OccursAt(s, p, i)
    decreases |s|
  {
    if StartsWith(s, p) {
      assert OccursAt(s, p, 0);
    } else if |s| > 0 {
      ContainsIffOccurs(s[1..], p);
      if Contains(s[1..], p) {
        var i :| OccursAt(s[1..], p, i);
        assert s[1..][i..i + |p|] == s[i + 1..i + 1 + |p|];
        assert OccursAt(s, p, i + 1);
      }
      if exists i :: OccursAt(s, p, i) {
        var i :| OccursAt(s, p, i);
        assert i != 0;
        assert s[i..i + |p|] == s[1..][i - 1..i - 1 + |p|];
        assert OccursAt(s[1..], p, i - 1);
      }
    }
  }

  /** Every string contains the empty string. */
  lemma ContainsEmpty(s: string)
    ensures Contains(s, "")
  {
    assert StartsWith(s, "");
  }

  // ---------------------------------------------------------------------
  // Integer.toString on non-negative numbers

  predicate IsDigit(c: char)
  {
    '0' <= c <= '9'
  }

  function DigitChar(d: nat): (c: char)
    requires d < 10
    ensures IsDigit(c)
  {
    (48 + d) as char
  }

  function DigitValue(c: char): (d: nat)
    requires IsDigit(c)
    ensures d < 10
  {
    c as int - 48
  }

  /** `Integer.toString(n)` for `n >= 0`: decimal digits, no leading zero. */
  function DecimalString(n: nat): (s: string)
    ensures |s| >= 1
    ensures forall i :: 0 <= i < |s| ==> IsDigit(s[i])
    ensures |s| > 1 ==> s[0] != '0'
    ensures n < 10 <==> |s| == 1
    decreases n
  {
    if n < 10 then [DigitChar(n)] else DecimalString(n / 10) + [DigitChar(n % 10)]
  }

  /** Reads a string of decimal digits back as a number. */
  function ParseDecimal(s: string): nat
    requires forall i :: 0 <= i < |s| ==> IsDigit(s[i])
    decreases |s|
  {
    if |s| == 0 then 0 else 10 * ParseDecimal(s[..|s| - 1]) + DigitValue(s[|s| - 1])
  }

  /** `Integer.toString` loses nothing: parsing its output gives the number back. */
  lemma {:induction false} ParseDecimalString(n: nat)
    ensures ParseDecimal(DecimalString(n)) == n
    decreases n
  {
    var s := DecimalString(n);
    if n >= 10 {
      ParseDecimalString(n / 10);
      assert s[..|s| - 1] == DecimalString(n / 10);
    }
  }
}

=== FILE: repository.dfy ===
/**
 The repository's queries and updates on the `employees` table, each SQL
 statement read as a function of the table. The service layer delegates to
 these one for one, so its methods are these functions too.
 */
module Repository {
  import opened Platform
  import opened Employees
  import opened Pagination

  function Min(a: int, b: int): int
  {
    if a <= b then a else b
  }

  // ---------------------------------------------------------------------
  // findAll

  /** `findAll`: every row exactly once, ordered by hire date. */
  function FindAll(t: Table): (r: seq<Employee>)
    ensures SortedByHireDate(r)
    ensures multiset(r) == multiset(t)
    ensures |t| == 0 ==> r == []
  {
    SortByHireDate(t)
  }

  // ---------------------------------------------------------------------
  // findByNameWithPaging and totalRecord

  /** The paged query and the count add their WHERE clause only for a non-null, non-empty name. */
  predicate NameGiven(name: Nullable<string>)
  {
    name.Value? && |name.value| > 0
  }

  /** The rows the WHERE clause of the paged query and of the count lets through. */
  function Candidates(t: Table, name: Nullable<string>): seq<Employee>
  {
    if NameGiven(name) then FilterByName(t, name.value) else t
  }

  /** The candidates in the order of `ORDER BY hire_date`, before LIMIT and OFFSET. */
  function Ordered(t: Table, name: Nullable<string>): seq<Employee>
  {
    SortByHireDate(Candidates(t, name))
  }

  /** `LIMIT limit OFFSET offset` on an ordered result. */
  function LimitOffset(s: seq<Employee>, limit: nat, offset: nat): (r: seq<Employee>)
    ensures |r| == if offset >= |s| then 0 else Min(limit, |s| - offset)
    ensures forall k :: 0 <= k < |r| ==> r[k] == s[offset + k]
  {
    if offset >= |s| then [] else s[offset..Min(offset + limit, |s|)]
  }

  /**
   `findByNameWithPaging(paging, name)`: page `nowPage` of the candidates in
   hire-date order, `null` instead of an empty page. A negative LIMIT or
   OFFSET is refused by the database.
   */
  function FindByNameWithPaging(t: Table, paging: Paging, name: Nullable<string>)
    : (r: Result<Nullable<seq<Employee>>>)
    ensures r.Throws? <==> paging.pageSize < 0 || (paging.nowPage - 1) * paging.pageSize < 0
    ensures r.Throws? ==> r.error == NegativeLimitOrOffset
    ensures r.Ok? ==>
              (r.value.Null? <==>
                 paging.pageSize == 0 || (paging.nowPage - 1) * paging.pageSize >= |Ordered(t, name)|)
    ensures r.Ok? && r.value.Value? ==>
              var rows := r.value.value;
              var offset := (paging.nowPage - 1) * paging.pageSize;
              && 0 < |rows| <= paging.pageSize
              && offset + |rows| <= |Ordered(t, name)|
              && (forall k :: 0 <= k < |rows| ==> rows[k] == Ordered(t, name)[offset + k])
              && (|rows| == paging.pageSize || offset + |rows| == |Ordered(t, name)|)
  {
    var offset := (paging.nowPage - 1) * paging.pageSize;
    if paging.pageSize < 0 || offset < 0 then Throws(NegativeLimitOrOffset)
    else
      var rows := LimitOffset(Ordered(t, name), paging.pageSize, offset);
      if |rows| == 0 then Ok(Null) else Ok(Value(rows))
  }

  /**
   `totalRecord(name)`: `SELECT COUNT(*)` under the same WHERE clause as the
   paged query, counted row by row. It is the length of the list that query slices.
   */
  function TotalRecord(t: Table, name: Nullable<string>): (n: nat)
    ensures n == |Ordered(t, name)|
  {
    if NameGiven(name) then
      CountMatchingIsFilterLength(t, name.value);
      CountMatching(t, name.value)
    else |t|
  }

  /** With no name the count is the size of the whole list. */
  lemma FindAllSizeIsUnfilteredCount(t: Table)
    ensures |FindAll(t)| == TotalRecord(t, Null) == TotalRecord(t, Value(""))
  {
    assert |multiset(FindAll(t))| == |multiset(t)|;
  }

  /**
   A page number past the page count that `setTotalPage(totalRecord(name))`
   computes is exactly the case in which the paged query answers `null`.
   */
  lemma {:induction false} PageBeyondLastIsNull(t: Table, paging: Paging, name: Nullable<string>)
    requires paging.pageSize > 0 && paging.nowPage >= 1
    ensures FindByNameWithPaging(t, paging, name).Ok?
    ensures var pages := SetTotalPage(paging, TotalRecord(t, name)).value.totalPage;
            FindByNameWithPaging(t, paging, name) == Ok(Null) <==> paging.nowPage > pages
  {
    MulMonotone(0, paging.nowPage - 1, paging.pageSize);
    PageCountIsLeastCover(TotalRecord(t, name), paging.pageSize, paging.nowPage - 1);
  }

  /**
   A fresh `Paging` asks for the first page of five: the first five
   candidates in hire-date order, or `null` when there are none.
   */
  lemma DefaultPagingShowsFirstFiveRows(t: Table, name: Nullable<string>)
    ensures var ordered := Ordered(t, name);
            FindByNameWithPaging(t, Default, name)
            == if |ordered| == 0 then Ok(Null) else Ok(Value(ordered[..Min(5, |ordered|)]))
  {
  }

  // ---------------------------------------------------------------------
  // load

  /** The rows whose primary key is `id`. */
  function RowsWithId(t: Table, id: int): (r: seq<Employee>)
    ensures forall e :: e in r <==> e in t && e.id == id
    ensures UniqueIds(t) ==> |r| <= 1
    decreases |t|
  {
    if |t| == 0 then []
    else
      var rest := RowsWithId(t[1..], id);
      assert t == [t[0]] + t[1..];
      assert UniqueIds(t) ==> UniqueIds(t[1..]) by {
        if UniqueIds(t) {
          forall i, j | 0 <= i < |t[1..]| && 0 <= j < |t[1..]| && t[1..][i].id == t[1..][j].id
            ensures i == j
          {
            assert t[i + 1].id == t[j + 1].id;
          }
        }
      }
      if t[0].id == id then
        forall e | e in t[1..] && UniqueIds(t)
          ensures e.id != t[0].id
        {
          var j :| 0 <= j < |t[1..]| && t[1..][j] == e;
          assert t[j + 1] == e;
        }
        assert UniqueIds(t) ==> |rest| == 0 by {
          if |rest| > 0 {
            assert rest[0] in rest;
          }
        }
        [t[0]] + rest
      else rest
  }

  /**
   `load(id)`: the row with that id. No row raises the empty-result
   exception; two rows (impossible under the primary key) raise the
   wrong-size one.
   */
  function Load(t: Table, id: int): (r: Result<Employee>)
    ensures r.Ok? ==> r.value in t && r.value.id == id
    ensures r.Throws? ==> r.error == EmptyResultDataAccess || r.error == IncorrectResultSize
    ensures r == Throws(EmptyResultDataAccess) <==> id !in Ids(t)
    ensures UniqueIds(t) ==> (r.Ok? <==> id in Ids(t))
  {
    var rows := RowsWithId(t, id);
    if |rows| == 0 then
      Throws(EmptyResultDataAccess)
    else if |rows| > 1 then
      assert rows[0] in rows;
      Throws(IncorrectResultSize)
    else
      assert rows[0] in rows;
      Ok(rows[0])
  }

  // ---------------------------------------------------------------------
  // update

  /**
   `update(employee)`: `UPDATE employees SET dependents_count = ... WHERE id = ...`.
   Only the id and the dependents count of the argument are read.
   */
  function Update(t: Table, id: int, dependentsCount: int): (r: Table)
    ensures |r| == |t|
    ensures forall i :: 0 <= i < |t| && t[i].id == id ==>
                          r[i] == t[i].(dependentsCount := dependentsCount)
    ensures forall i :: 0 <= i < |t| && t[i].id != id ==> r[i] == t[i]
    decreases |t|
  {
    if |t| == 0 then []
    else
      var row := if t[0].id == id then t[0].(dependentsCount := dependentsCount) else t[0];
      [row] + Update(t[1..], id, dependentsCount)
  }

  /** Updating an id that is not stored changes nothing and raises nothing. */
  lemma UpdateOfMissingIdIsNoop(t: Table, id: int, dependentsCount: int)
    requires id !in Ids(t)
    ensures Update(t, id, dependentsCount) == t
  {
    var r := Update(t, id, dependentsCount);
    forall i | 0 <= i < |t|
      ensures r[i] == t[i]
    {
      assert t[i] in t;
    }
  }

  /** An update keeps every id, so the primary key stays intact. */
  lemma UpdateKeepsIds(t: Table, id: int, dependentsCount: int)
    ensures Ids(Update(t, id, dependentsCount)) == Ids(t)
    ensures UniqueIds(t) ==> UniqueIds(Update(t, id, dependentsCount))
  {
    var r := Update(t, id, dependentsCount);
    forall x | x in Ids(r) ensures x in Ids(t) {
      var e :| e in r && e.id == x;
      var i :| 0 <= i < |r| && r[i] == e;
      assert t[i] in t;
    }
    forall x | x in Ids(t) ensures x in Ids(r) {
      var e :| e in t && e.id == x;
      var i :| 0 <= i < |t| && t[i] == e;
      assert r[i] in r;
    }
  }

  /** Under a unique primary key, loading the id of a row gives that row. */
  lemma LoadAtIndex(t: Table, i: int)
    requires UniqueIds(t) && 0 <= i < |t|
    ensures Load(t, t[i].id) == Ok(t[i])
  {
    var rows := RowsWithId(t, t[i].id);
    assert t[i] in rows;
    assert rows[0] in rows;
  }

  /**
   Reading back after an update: the updated employee comes back with the
   new count and every other column as before; other employees load as before.
   */
  lemma LoadAfterUpdate(t: Table, id: int, dependentsCount: int, other: int)
    requires UniqueIds(t) && id in Ids(t)
    ensures Load(Update(t, id, dependentsCount), id)
            == Ok(Load(t, id).value.(dependentsCount := dependentsCount))
    ensures other != id ==> Load(Update(t, id, dependentsCount), other) == Load(t, other)
  {
    var r := Update(t, id, dependentsCount);
    UpdateKeepsIds(t, id, dependentsCount);
    var e :| e in t && e.id == id;
    var i :| 0 <= i < |t| && t[i] == e;
    LoadAtIndex(t, i);
    LoadAtIndex(r, i);
    if other != id && other in Ids(t) {
      var f :| f in t && f.id == other;
      var j :| 0 <= j < |t| && t[j] == f;
      LoadAtIndex(t, j);
      LoadAtIndex(r, j);
    }
  }

  // ---------------------------------------------------------------------
  // findByName

  /** The text between the `%` signs: Java renders a `null` name as "null". */
  function LikeText(name: Nullable<string>): string
  {
    match name
    case Null => "null"
    case Value(s) => s
  }

  /** `findByName(name)`: always filters, then orders by hire date; never limited. */
  function FindByName(t: Table, name: Nullable<string>): (r: seq<Employee>)
    ensures SortedByHireDate(r)
    ensures forall e :: multiset(r)[e] == if Contains(e.name, LikeText(name)) then multiset(t)[e] else 0
  {
    SortByHireDate(FilterByName(t, LikeText(name)))
  }

  /** Searching for the empty name lists every row, just like `findAll`. */
  lemma FindByEmptyNameIsFindAll(t: Table)
    ensures FindByName(t, Value("")) == FindAll(t)
  {
    FilterByEmptyNameKeepsAll(t);
  }

  // ---------------------------------------------------------------------
  // insert and findMaxId

  /**
   `insert(employee)`: one new row carrying all twelve columns of the
   argument. A repeated id violates the primary key.
   */
  function Insert(t: Table, e: Employee): (r: Result<Table>)
    ensures r.Ok? <==> e.id !in Ids(t)
    ensures r.Throws? ==> r.error == DuplicateKey
    ensures r.Ok? ==> |r.value| == |t| + 1 && r.value[..|t|] == t && r.value[|t|] == e
  {
    if e.id in Ids(t) then Throws(DuplicateKey) else Ok(t + [e])
  }

  /** An accepted insert keeps the primary key unique. */
  lemma InsertKeepsUniqueIds(t: Table, e: Employee)
    requires UniqueIds(t) && Insert(t, e).Ok?
    ensures UniqueIds(Insert(t, e).value)
    ensures Ids(Insert(t, e).value) == Ids(t) + {e.id}
  {
    var r := Insert(t, e).value;
    forall i, j | 0 <= i < |r| && 0 <= j < |r| && r[i].id == r[j].id
      ensures i == j
    {
      if i < |t| { assert t[i] in t; }
      if j < |t| { assert t[j] in t; }
    }
  }

  /** Round trip: a row inserted under a fresh id loads back unchanged; other ids load as before. */
  lemma LoadAfterInsert(t: Table, e: Employee, other: int)
    requires UniqueIds(t) && Insert(t, e).Ok?
    ensures Load(Insert(t, e).value, e.id) == Ok(e)
    ensures other != e.id ==> Load(Insert(t, e).value, other) == Load(t, other)
  {
    var r := Insert(t, e).value;
    InsertKeepsUniqueIds(t, e);
    LoadAtIndex(r, |t|);
    if other != e.id && other in Ids(t) {
      var f :| f in t && f.id == other;
      var j :| 0 <= j < |t| && t[j] == f;
      LoadAtIndex(t, j);
      assert r[j] == t[j];
      LoadAtIndex(r, j);
    }
  }

  /** `findMaxId`: `SELECT MAX(id)`, which is SQL NULL on an empty table. */
  function FindMaxId(t: Table): (r: Nullable<int>)
    ensures r.Null? <==> |t| == 0
    ensures r.Value? ==> r.value in Ids(t)
    ensures r.Value? ==> forall e :: e in t ==> e.id <= r.value
    decreases |t|
  {
    if |t| == 0 then Null
    else
      assert t == [t[0]] + t[1..];
      match FindMaxId(t[1..])
      case Null => Value(t[0].id)
      case Value(m) => Value(if t[0].id > m then t[0].id else m)
  }
}
